=== FILE: README.md ===
# spanner-query-stats-collector, modelled in Dafny

The collector polls two of Cloud Spanner's introspection views, the minute-level
query statistics and transaction statistics, on a timer. The worker's granularity
(minute, ten minutes or hour) sets only the timer period and the starting watermark.
On each tick the collector keeps only the newest batch of rows that it has not yet
gone past, and hands the query rows to a writer: a zap structured logger or an
OpenTelemetry meter. Lock statistics (`LockStat`) appear only in the writers; nothing
fetches them.

This project models the deterministic core of that loop as pure Dafny:

- `Rows` (rows.dfy): the `QueryStat`, `TransactionStat` and `LockStat` records and
  the closed union `Stat` that the writers switch on. Timestamps are integer
  nanoseconds. `float64` values are opaque bit patterns. `int64` and `byte` are newtypes.
- `Granularity` (granularity.dfy): `statDuration.String` and `Duration`. Both are total
  maps over every integer, with the one-minute value as the default.
- `Fetch` (fetch.dfy): the all-or-nothing decode loop of `GetQueryStats` and
  `GetTransactionStats`, over a given sequence of iterator steps. It also holds
  `strings.TrimSpace` with Go's `unicode.IsSpace` set.
- `Dedup` (dedup.dfy): the filter-and-watermark step of `getQueryStats` and
  `getTransactionStats`, modelled exactly as written. It also holds lemmas on what
  that step does and does not guarantee across ticks.
- `Worker` (worker.dfy): `NewWorker`'s initial watermark, the `Start` loop as a
  function over a trace of `select` events, and `Stop`.
- `ZapWriter` (zapwriter.dfy): `Write` and `getFields`, with a reader that recovers
  each row from its log fields.
- `OtelLabels` (otellabels.dfy): the label strings of the OpenTelemetry writer. These
  are the newline replacer (one-for-one, with no line break left, and not invertible),
  the comma join (read back by `Split` for non-empty comma-free lists) and the
  lock-request rendering (read back by a parser for unambiguous requests).
- `OtelWriter` (otelwriter.dfy): the instruments `NewOpenTelemetryWriter` registers and
  the batch recorded per row.
- `Wrappers` (wrappers.dfy): `Option`. `None` stands for a Go nil slice.

Where the code behaves differently from what its names suggest, the model follows the code:

- The watermark is not monotonic. When row 0 is older than it, the watermark is set
  back to row 0's end.
- A row equal to the watermark is kept, because `After` is strict. The same batch is
  written again on every tick until a newer interval appears (`Dedup.SameSnapshotRedelivered`).
- The query and transaction goroutines share one `lastIntervalEnd`. The kinds are not isolated.
- One undecodable row discards the whole fetch. It is not dropped on its own.
- The transaction path never calls `Write`.
- `Stop` before `Start` calls a nil cancel function and panics.
- The ticker period is the granularity's `Duration()`, not a fixed minute.

## Model

| member | source | states |
|---|---|---|
| `Granularity.Label` | stats/stats.go:24-32 | "10minute" exactly for `StatDuration10Min`, "hour" exactly for `StatDurationHour`, "minute" for every other integer |
| `Granularity.Duration` | stats/stats.go:34-42 | positive; ten minutes exactly for `StatDuration10Min`, one hour exactly for `StatDurationHour`, one minute for every other integer |
| `Granularity.DurationsOrdered` | stats/stats.go:34-42 | Min < 10Min < Hour strictly |
| `Granularity.DefaultsAgree` | stats/stats.go:24-42 | a value is labelled "minute" iff its duration is one minute |
| `Granularity.LabelRoundTrip` | stats/stats.go:24-42 | parsing a label gives back the named value every integer behaves as, with the same label and duration |
| `Granularity.LabelDeterminesDuration` | stats/stats.go:24-42 | two values have the same label iff they have the same duration |
| `Fetch.TrimSpace` | stats/stats.go:99 | the result is a contiguous piece of the input with only spaces cut on either side, and has no leading or trailing space |
| `Fetch.TrimSpaceOfTrimmed` | stats/stats.go:99 | text with no leading or trailing space is unchanged |
| `Fetch.TrimSpaceIdempotent` | stats/stats.go:99 | trimming twice equals trimming once |
| `Fetch.TrimSpaceFixedPoints` | stats/stats.go:99 | trimming leaves text unchanged iff it has no leading or trailing space |
| `Fetch.Collect` | stats/stats.go:84-103 | all-or-nothing: a result iff the transaction began and every step is a decodable row; then one post-processed row per step, in iterator order |
| `Fetch.GetQueryStats` | stats/stats.go:60-104 | nil on any begin, iterator or decode error; otherwise every row in order with only its text trimmed, and every text already trimmed |
| `Fetch.GetTransactionStats` | stats/stats.go:124-172 | nil on any begin, iterator or decode error; otherwise every row unchanged and in order |
| `Dedup.StopIndex` | stats/worker.go:81-87 | the loop runs past every row before the index and breaks at the index, if it is inside the snapshot |
| `Dedup.Filter` | stats/worker.go:79-87 | an empty snapshot changes nothing; the kept rows are a prefix sharing row 0's end and none is before the old watermark; the prefix is maximal; the watermark becomes row 0's end exactly when the loop breaks; it does not fall when row 0 is at or after it, and is lowered to row 0's end (nothing kept) when row 0 is before it |
| `Dedup.Tick` | stats/worker.go:73-93 | an empty snapshot neither writes nor moves the watermark; a batch is written iff writing is enabled and row 0 is not before the watermark, and it is exactly the filtered prefix |
| `Dedup.QueryStep` | stats/worker.go:73-93 | the query path writes iff the filtered prefix is non-empty, writes exactly that prefix, and takes the filter's watermark |
| `Dedup.TransactionStep` | stats/worker.go:95-115 | the transaction path takes the same watermark update and never writes |
| `Dedup.StopIndexBelowBatch` | stats/worker.go:82 | with the watermark at or below the batch end, the break index depends only on where the batch ends |
| `Dedup.TieBreakExample` | stats/worker.go:80-86 | ends [T,T,T,T-1,T-1] with watermark T-1 keep the three rows at T and move the watermark to T |
| `Dedup.RowAtWatermarkKept` | stats/worker.go:82 | a row whose end equals the watermark is kept |
| `Dedup.AllPassKeepsWatermark` | stats/worker.go:81-87 | when every row passes, all rows are kept and the watermark is unchanged |
| `Dedup.SameSnapshotRedelivered` | stats/worker.go:80-92 | the same snapshot on the next tick writes the same rows again |
| `Dedup.BatchKeptWhole` | stats/worker.go:80-87 | on a snapshot in descending interval-end order, every row of the newest batch is kept or none is |
| `Dedup.DistinctBatchesShareNoRow` | stats/worker.go:80-83 | snapshots with different newest ends never keep a common row |
| `Dedup.WatermarkMonotonicWhenNewestNeverRegresses` | stats/worker.go:80-86 | if no snapshot's newest end is below the starting watermark or below an earlier snapshot's, the watermarks over the ticks never decrease |
| `Worker.NewWorker` | stats/worker.go:21-28 | the watermark starts two granularity periods before now, so more than one period back |
| `Dedup.Watermarks` | stats/worker.go:80-86 | one watermark per tick; each either stays at the previous one or becomes the newest end of that tick's non-empty snapshot |
| `Worker.FreshStartCatchUp` | stats/worker.go:26 | a fresh worker's first tick writes a snapshot whose newest end is one period before now |
| `Worker.Loop` | stats/worker.go:40-49 | returns iff some event is a cancellation, at the first one; one tick for each timer event before it |
| `Worker.Start` | stats/worker.go:31-50 | the session is started (so `Stop` cancels) and keeps the worker's granularity; the watermark is not part of it; ticker period equals the granularity's duration; one tick first, then one per timer event until the first cancellation, so the tick count is one plus the timer events before it (one plus all events when none cancels) |
| `Worker.EventsAfterReturnIgnored` | stats/worker.go:40-49 | events after the loop returns change nothing |
| `Worker.CancelAfterTimers` | stats/worker.go:31-50 | n timer events and then a cancellation of either context give exactly n+1 ticks, whatever follows |
| `Worker.Stop` | stats/worker.go:52-55 | given the started flag (false from `NewWorker`, true in the session `Start` returns): cancels (as a local-cancel event that ends the loop) iff `Start` ran; otherwise it panics on the nil cancel function |
| `ZapWriter.GetFields` | stats/writer.go:29-74 | `type` first naming the variant, `IntervalEnd` second, and the row can be read back from the fields |
| `ZapWriter.GetFieldsInjective` | stats/writer.go:29-74 | distinct rows give distinct field lists |
| `ZapWriter.Write` | stats/writer.go:23-27 | exactly one "spanner stats" record per row, in row order, each tagged with and readable back as its row |
| `OtelLabels.Sanitize` | stats/writer.go:145 | length kept; each `\r`, `\n`, `\t` becomes a space and every other character is unchanged |
| `OtelLabels.SanitizeRemovesLineBreaks` | stats/writer.go:145 | sanitised text holds no `\r`, `\n` or `\t` |
| `OtelLabels.SanitizeIdempotent` | stats/writer.go:145 | sanitising twice equals sanitising once |
| `OtelLabels.SanitizeKeepsClean` | stats/writer.go:145 | text without those characters passes unchanged |
| `OtelLabels.Join` | stats/writer.go:162-164 | the empty list joins to ""; otherwise the length is the elements' total length plus one separator between each pair, and the join starts with the first element |
| `OtelLabels.JoinSplit` | stats/writer.go:162-164 | joining the split of any string gives it back |
| `OtelLabels.SplitJoin` | stats/writer.go:162-164 | splitting the join of a non-empty list of comma-free columns gives the list back |
| `OtelLabels.JoinEdges` | stats/writer.go:162-164 | the empty list joins to "", a singleton to its element, and a list whose last element is non-empty and comma-free does not end with a separator (`Join(["a", ""])` is `"a,"`) |
| `OtelLabels.JoinEndsWithLast` | stats/writer.go:162-164 | the join ends with the last element |
| `OtelLabels.RenderLockRequests` | stats/writer.go:182-192 | empty exactly for no requests; otherwise it ends with ")," |
| `OtelLabels.RenderAppend` | stats/writer.go:182-192 | rendering is in-order concatenation: rendering a + b is rendering a then b |
| `OtelLabels.ParseRender` | stats/writer.go:182-192 | requests whose columns hold no `,` and whose modes hold no `)` parse back from their rendering |
| `OtelWriter.NewOpenTelemetryWriter` | stats/writer.go:201-244 | each instrument's field name and kind, in order (query: IntervalEnd, ExecutionCount, then five float averages ending in `AvgCpuSeconds`, with `ExecutionCount` the only counter; transaction: IntervalEnd, three integer counts, four float averages; lock: IntervalEnd and LockWaitSeconds); query instruments named under the query prefix; transaction instruments owned by the transaction meter but named under the query prefix; the lock's IntervalEnd named under the lock prefix and LockWaitSeconds under the query prefix; lock batches recorded on the transaction meter |
| `OtelWriter.InstrumentNamesCollide` | stats/writer.go:214-233 | the query and transaction writers register the same IntervalEnd and AvgBytes names on different meters |
| `OtelWriter.LockMeterMismatch` | stats/writer.go:236-241 | lock batches go through a meter that does not own the lock instruments, and LockWaitSeconds is not named under the lock prefix |
| `OtelWriter.IntendedOpenTelemetryWriter` | stats/writer.go:130-134 | each kind's instruments are owned by, named under and recorded on that kind's own meter, with the same field names and kinds as the registered ones, the lock's `IntervalEnd` and `LockWaitSeconds` included |
| `OtelWriter.IntendedNamesDistinct` | stats/writer.go:130-134 | in that writer no two kinds share an instrument name |
| `OtelWriter.Record` | stats/writer.go:136-199 | each row's batch goes to its kind's meter and measures its kind's instruments in order; every measured value is the row field of the same name (interval end first, counts as integers, averages as floats); the labels are exactly the sanitised text and fingerprint (query), the three joined column lists and `Fprint` (transaction), or the start key and the rendered lock requests (lock) |
| `OtelWriter.QueryLabelsReadable` | stats/writer.go:142-148 | the Text label is the sanitised text and holds no line break; the fingerprint label carries the fingerprint |
| `OtelWriter.TransactionLabelsReadable` | stats/writer.go:161-166 | each of the three column-list labels splits back into its list when the list is non-empty and comma-free |
| `OtelWriter.LockLabelsReadable` | stats/writer.go:180-193 | the start-key label carries the key's bytes; the lock-request label parses back into the requests when they are unambiguous |
| `OtelWriter.Write` | stats/writer.go:136-199 | one batch per row, in row order |

## Left out

- Both fetches always read the minute view (`StatDurationMin`), whatever the worker's granularity. Only the ticker period and the initial watermark follow it. `Worker.FreshStartCatchUp` takes the snapshot as a parameter, so for a 10-minute or hour worker its premise (a newest end one period before now) is not what the minute view would return on the first tick.
- Spanner access is not modelled: `NewClient`, the `SELECT 1` probe, `BatchReadOnlyTransaction`, the SQL text and the iterator are foreign calls. A fetch is a given sequence of iterator steps, and "the transaction began" is a given boolean.
- The `ORDER BY interval_end DESC` ordering is not assumed by the filter, whose contract holds for any snapshot order. Only `Dedup.BatchKeptWhole` takes it as a precondition.
- cmd/collector/main.go is not part of this model. It is flag parsing, signal handling and errgroup wiring.
- The `ticker` goroutines are not modelled. The query and transaction steps race on one shared watermark. Each step is modelled as a pure function, and no order between them is claimed.
- `Worker.Start`: the model counts ticks only and does not thread the shared watermark through them, because the two goroutines' order is not determined. The session it returns therefore says nothing about the watermark after the run; `Dedup.Watermarks` states how one kind's ticks move it.
- Cancellation during a tick is not modelled. A cancelled context makes that tick's fetch fail. A failed fetch is already an input to the step.
- Floating-point fields are carried as opaque bit patterns, with no arithmetic.
- `IntervalEnd.UnixNano()` is not modelled as int64. It is the unbounded nanosecond count, so instants outside the years 1678–2262, where Go's result is undefined, are not modelled.
- zap and OpenTelemetry library calls are not modelled. Only the values handed to `logger.Info`, `Labels`, `Measurement` and `RecordBatch` are modelled.
- `ZapWriter.GetFields`: the nil result for an unrecognised dynamic type is unreachable. The closed `Stat` union has no fourth variant, and a nil interface value is not modelled.
- The `Write` calls pass a `[]*QueryStat` where the interface expects `[]stat`. The model hands the writer the rows wrapped as `Stat` values.
- `Fetch.TrimSpace` works on decoded characters. Invalid UTF-8 bytes in the text are not modelled.
- Wall-clock time and the ticker are parameters. `now` is passed to `NewWorker`, and timer firings are events in the trace.

## Findings

| source | as written | input that shows it | evidently intended | confidence | as-written member | corrected member |
|---|---|---|---|---|---|---|
| stats/writer.go:226-233 | every transaction instrument is named with the query meter's prefix | `NewOpenTelemetryWriter()`: the query and transaction writers both register `spanner.stats.query.IntervalEnd` and `spanner.stats.query.AvgBytes` | transaction instruments named under `spanner.stats.transaction`, so that no name is shared across kinds | high; not executed | `OtelWriter.InstrumentNamesCollide` | `OtelWriter.IntendedNamesDistinct` |
| stats/writer.go:237-240 | lock batches are recorded on the transaction meter, and `LockWaitSeconds` is named under the query prefix | `NewOpenTelemetryWriter()`: the lock writer's meter is `spanner.stats.transaction`, but its instruments are owned by `spanner.stats.lock` | lock batches recorded on the lock meter, with both lock instruments named under `spanner.stats.lock` | high; not executed | `OtelWriter.LockMeterMismatch` | `OtelWriter.IntendedOpenTelemetryWriter` |

=== FILE: dedup.dfy ===
/** The per-tick deduplication step of `getQueryStats` and `getTransactionStats`:
    keep the leading run of rows of the newest interval that are not older than the
    watermark `lastIntervalEnd`, and move the watermark when that run stops early. */
module Dedup {
  import opened Wrappers
  import opened Rows

  /** The interval end of row 0: the newest when the snapshot is sorted descending. */
  function Newest(rows: seq<Stat>): Time
    requires rows != []
  {
    rows[0].IntervalEnd()
  }

  /** The loop's break condition at row `s`, for batch end `e` and watermark `wm`:
      a different interval end, or one strictly before the watermark (`After` is strict). */
  predicate Stops(s: Stat, e: Time, wm: Time) {
    e != s.IntervalEnd() || wm > s.IntervalEnd()
  }

  /** The index at which the range loop breaks, or `|rows|` when it runs to the end. */
  function StopIndex(rows: seq<Stat>, e: Time, wm: Time): (k: nat)
    ensures k <= |rows|
    ensures forall j :: 0 <= j < k ==> !Stops(rows[j], e, wm)
    ensures k < |rows| ==> Stops(rows[k], e, wm)
  {
    if rows == [] then 0
    else if Stops(rows[0], e, wm) then 0
    else 1 + StopIndex(rows[1..], e, wm)
  }

  /** The rows that survive the filter and the watermark after it. */
  datatype Filtered = Filtered(kept: seq<Stat>, watermark: Time)

  /** One filter-and-watermark step. The watermark is assigned only on the `break`
      path, so it is left alone when every row passes and set to the batch end
      (possibly lower than before) when the loop stops early. */
  function Filter(rows: seq<Stat>, wm: Time): (f: Filtered)
    ensures rows == [] ==> f == Filtered([], wm)
    ensures f.kept <= rows
    ensures forall i :: 0 <= i < |f.kept| ==> f.kept[i].IntervalEnd() == Newest(rows)
    ensures forall i :: 0 <= i < |f.kept| ==> wm <= f.kept[i].IntervalEnd()
    ensures |f.kept| < |rows| ==>
      rows[|f.kept|].IntervalEnd() != Newest(rows) || rows[|f.kept|].IntervalEnd() < wm
    ensures f.watermark == (if |f.kept| < |rows| then Newest(rows) else wm)
    ensures rows != [] && Newest(rows) >= wm ==> f.kept != [] && f.watermark >= wm
    ensures rows != [] && Newest(rows) < wm ==> f.kept == [] && f.watermark == Newest(rows)
  {
    if rows == [] then Filtered([], wm)
    else
      var e := rows[0].IntervalEnd();
      var k := StopIndex(rows, e, wm);
      if k < |rows| then Filtered(rows[..k], e) else Filtered(rows, wm)
  }

  /** The outcome of one kind's step within a tick: the new watermark and the batch
      handed to `Write`, if any. */
  datatype Step = Step(watermark: Time, written: Option<seq<Stat>>)

  /** Filter the snapshot and, when `writes` holds and something survived, write it.
      An empty snapshot returns before the filter runs. */
  function Tick(rows: seq<Stat>, wm: Time, writes: bool): (r: Step)
    ensures rows == [] ==> r == Step(wm, None)
    ensures r.watermark == Filter(rows, wm).watermark
    ensures r.written.Some? <==> writes && rows != [] && Newest(rows) >= wm
    ensures r.written.Some? ==> r.written.value == Filter(rows, wm).kept && r.written.value != []
  {
    if |rows| == 0 then Step(wm, None)
    else
      var f := Filter(rows, wm);
      if |f.kept| == 0 || !writes then Step(f.watermark, None)
      else Step(f.watermark, Some(f.kept))
  }

  /** The query snapshot as `stat` values; a nil fetch is an empty one. */
  function QueryRows(fetched: Option<seq<QueryStat>>): (rows: seq<Stat>)
    ensures fetched.None? ==> rows == []
    ensures fetched.Some? ==> |rows| == |fetched.value|
    ensures fetched.Some? ==> forall i :: 0 <= i < |rows| ==> rows[i] == Query(fetched.value[i])
  {
    var v := fetched.GetOr([]);
    seq(|v|, i requires 0 <= i < |v| => Query(v[i]))
  }

  /** The transaction snapshot as `stat` values; a nil fetch is an empty one. */
  function TransactionRows(fetched: Option<seq<TransactionStat>>): (rows: seq<Stat>)
    ensures fetched.None? ==> rows == []
    ensures fetched.Some? ==> |rows| == |fetched.value|
    ensures fetched.Some? ==> forall i :: 0 <= i < |rows| ==> rows[i] == Transaction(fetched.value[i])
  {
    var v := fetched.GetOr([]);
    seq(|v|, i requires 0 <= i < |v| => Transaction(v[i]))
  }

  /** `getQueryStats` after the fetch: writes exactly when the filtered prefix is non-empty. */
  function QueryStep(fetched: Option<seq<QueryStat>>, wm: Time): (r: Step)
    ensures r.watermark == Filter(QueryRows(fetched), wm).watermark
    ensures r.written.Some? <==> Filter(QueryRows(fetched), wm).kept != []
    ensures r.written.Some? ==> r.written.value == Filter(QueryRows(fetched), wm).kept
  {
    Tick(QueryRows(fetched), wm, true)
  }

  /** `getTransactionStats` after the fetch: the same filter and watermark update, but
      the `Write` call is commented out, so nothing is ever written. */
  function TransactionStep(fetched: Option<seq<TransactionStat>>, wm: Time): (r: Step)
    ensures r.watermark == Filter(TransactionRows(fetched), wm).watermark
    ensures r.written == None
  {
    Tick(TransactionRows(fetched), wm, false)
  }

  /** With the watermark at or below the batch end, the stop index depends only on
      where the batch ends. */
  lemma {:induction false} StopIndexBelowBatch(rows: seq<Stat>, e: Time, wm: Time)
    requires wm <= e
    ensures StopIndex(rows, e, wm) == StopIndex(rows, e, e)
  {
    if rows != [] && !Stops(rows[0], e, wm) {
      StopIndexBelowBatch(rows[1..], e, wm);
    }
  }

  /** Ends [T, T, T, T-1, T-1] with watermark T-1 keep the three rows at T and move
      the watermark to T. */
  lemma TieBreakExample(rows: seq<Stat>, t: Time)
    requires |rows| == 5
    requires rows[0].IntervalEnd() == t && rows[1].IntervalEnd() == t && rows[2].IntervalEnd() == t
    requires rows[3].IntervalEnd() == t - 1 && rows[4].IntervalEnd() == t - 1
    ensures Filter(rows, t - 1) == Filtered(rows[..3], t)
  {
    assert StopIndex(rows[3..], t, t - 1) == 0;
    assert rows[1..][1..][1..] == rows[3..];
  }

  /** A row exactly at the watermark is kept: the comparison is strict. */
  lemma RowAtWatermarkKept(rows: seq<Stat>, wm: Time)
    requires rows != [] && Newest(rows) == wm
    ensures Filter(rows, wm).kept != [] && Filter(rows, wm).kept[0] == rows[0]
  {
  }

  /** When every row belongs to the newest batch and none is older than the watermark,
      all rows are kept and the watermark does not move. */
  lemma AllPassKeepsWatermark(rows: seq<Stat>, wm: Time)
    requires rows != []
    requires forall i :: 0 <= i < |rows| ==> rows[i].IntervalEnd() == Newest(rows)
    requires wm <= Newest(rows)
    ensures Filter(rows, wm) == Filtered(rows, wm)
  {
  }

  /** Re-emission as written: once a snapshot's batch has been written, the same
      snapshot on the next tick writes the same rows again, whether or not the loop
      broke and moved the watermark. */
  lemma SameSnapshotRedelivered(rows: seq<Stat>, wm: Time)
    requires rows != [] && Newest(rows) >= wm
    ensures Tick(rows, Tick(rows, wm, true).watermark, true).written == Tick(rows, wm, true).written
    ensures Tick(rows, wm, true).written.Some?
  {
    var e := Newest(rows);
    StopIndexBelowBatch(rows, e, wm);
    var w := Filter(rows, wm).watermark;
    assert wm <= w <= e;
    StopIndexBelowBatch(rows, e, w);
  }

  /** Redelivery is avoided only across batches: two snapshots with different newest
      interval ends never keep a common row. */
  lemma DistinctBatchesShareNoRow(rows1: seq<Stat>, wm1: Time, rows2: seq<Stat>, wm2: Time)
    requires rows1 != [] && rows2 != [] && Newest(rows1) != Newest(rows2)
    ensures forall s :: s in Filter(rows1, wm1).kept ==> s !in Filter(rows2, wm2).kept
  {
  }

  /** The order the source's query asks for: interval end, descending. */
  predicate SortedDescending(rows: seq<Stat>) {
    forall i, j :: 0 <= i < j < |rows| ==> rows[j].IntervalEnd() <= rows[i].IntervalEnd()
  }

  /** Batch atomicity: on a snapshot in descending order, the newest batch is kept
      whole or not at all. */
  lemma BatchKeptWhole(rows: seq<Stat>, wm: Time)
    requires rows != [] && SortedDescending(rows)
    ensures var kept := Filter(rows, wm).kept;
      kept == [] || forall i :: 0 <= i < |rows| && rows[i].IntervalEnd() == Newest(rows) ==> i < |kept|
  {
    var f := Filter(rows, wm);
    var k := |f.kept|;
    if f.kept != [] && k < |rows| {
      assert Newest(rows) >= wm;
      assert rows[k].IntervalEnd() < Newest(rows);
    }
  }

  /** The watermarks after each of a series of ticks of one kind, run in order. */
  function Watermarks(snapshots: seq<seq<Stat>>, wm: Time): (ws: seq<Time>)
    ensures |ws| == |snapshots|
    ensures forall i :: 0 <= i < |ws| ==>
      ws[i] == (if i == 0 then wm else ws[i - 1]) || (snapshots[i] != [] && ws[i] == Newest(snapshots[i]))
  {
    if snapshots == [] then []
    else
      var w := Filter(snapshots[0], wm).watermark;
      [w] + Watermarks(snapshots[1..], w)
  }

  /** No non-empty snapshot's newest end is below `wm` or below an earlier snapshot's. */
  predicate NewestNeverRegresses(snapshots: seq<seq<Stat>>, wm: Time) {
    forall i :: 0 <= i < |snapshots| && snapshots[i] != [] ==>
      && wm <= Newest(snapshots[i])
      && forall j :: i < j < |snapshots| && snapshots[j] != [] ==> Newest(snapshots[i]) <= Newest(snapshots[j])
  }

  predicate NonDecreasing(xs: seq<Time>) {
    forall i, j :: 0 <= i < j < |xs| ==> xs[i] <= xs[j]
  }

  /** The watermark is monotonic only under a condition: when no snapshot's newest end
      regresses, the watermarks never fall below the initial one and never decrease. */
  lemma {:induction false} WatermarkMonotonicWhenNewestNeverRegresses(snapshots: seq<seq<Stat>>, wm: Time)
    requires NewestNeverRegresses(snapshots, wm)
    ensures NonDecreasing([wm] + Watermarks(snapshots, wm))
  {
    if snapshots != [] {
      var w := Filter(snapshots[0], wm).watermark;
      assert wm <= w;
      var rest := snapshots[1..];
      assert NewestNeverRegresses(rest, w) by {
        forall i | 0 <= i < |rest| && rest[i] != []
          ensures w <= Newest(rest[i])
        {
          assert rest[i] == snapshots[i + 1];
        }
      }
      WatermarkMonotonicWhenNewestNeverRegresses(rest, w);
      var tail := [w] + Watermarks(rest, w);
      assert [wm] + Watermarks(snapshots, wm) == [wm] + tail;
      assert tail[0] == w;
      var all := [wm] + tail;
      forall i, j | 0 <= i < j < |all|
        ensures all[i] <= all[j]
      {
        if i > 0 {
          assert all[i] == tail[i - 1] && all[j] == tail[j - 1];
        } else {
          assert tail[0] <= tail[j - 1];
        }
      }
    }
  }
}

=== FILE: fetch.dfy ===
/** The decoding half of `GetQueryStats` and `GetTransactionStats`: the result
    iterator is given as a sequence of steps, and one failure anywhere yields nil. */
module Fetch {
  import opened Wrappers
  import opened Rows

  /** One call of `iter.Next` followed by `row.ToStruct`: a row that decodes to `raw`,
      a row that fails to decode, or an iterator error. The end of the sequence is
      `iterator.Done`. */
  datatype Next<T> = Row(raw: T) | Undecodable | IteratorError

  /** Go's `unicode.IsSpace`: the Latin-1 spaces and the Unicode White_Space property. */
  predicate IsSpace(c: char) {
    || c == '\t' || c == '\n' || c == '\U{000B}' || c == '\U{000C}' || c == '\r' || c == ' '
    || c == '\U{0085}' || c == '\U{00A0}' || c == '\U{1680}'
    || ('\U{2000}' <= c <= '\U{200A}')
    || c == '\U{2028}' || c == '\U{2029}' || c == '\U{202F}' || c == '\U{205F}' || c == '\U{3000}'
  }

  predicate AllSpace(s: string) {
    forall k :: 0 <= k < |s| ==> IsSpace(s[k])
  }

  /** Neither the first nor the last character is a space. */
  predicate Trimmed(s: string) {
    |s| > 0 ==> !IsSpace(s[0]) && !IsSpace(s[|s| - 1])
  }

  /** The number of leading spaces. */
  function LeadingSpaces(s: string): (n: nat)
    ensures n <= |s|
    ensures AllSpace(s[..n])
    ensures n < |s| ==> !IsSpace(s[n])
  {
    if s == [] || !IsSpace(s[0]) then 0 else 1 + LeadingSpaces(s[1..])
  }

  /** The length of `s` without its trailing spaces. */
  function TrailingStart(s: string): (n: nat)
    ensures n <= |s|
    ensures AllSpace(s[n..])
    ensures n > 0 ==> !IsSpace(s[n - 1])
  {
    if s == [] || !IsSpace(s[|s| - 1]) then |s| else TrailingStart(s[..|s| - 1])
  }

  /** `strings.TrimSpace`: drops leading, then trailing, spaces. */
  function TrimSpace(s: string): (r: string)
    ensures Trimmed(r)
    ensures exists i :: 0 <= i <= |s| - |r| && r == s[i..i + |r|] && AllSpace(s[..i]) && AllSpace(s[i + |r|..])
  {
    var lo := LeadingSpaces(s);
    var rest := s[lo..];
    var hi := TrailingStart(rest);
    assert s[lo..][..hi] == s[lo..lo + hi];
    assert s[lo..][hi..] == s[lo + hi..];
    rest[..hi]
  }

  /** A string without leading or trailing spaces is its own trim. */
  lemma TrimSpaceOfTrimmed(s: string)
    requires Trimmed(s)
    ensures TrimSpace(s) == s
  {
    if s != [] {
      assert LeadingSpaces(s) == 0;
      assert TrailingStart(s) == |s|;
    }
  }

  /** Trimming twice is trimming once. */
  lemma TrimSpaceIdempotent(s: string)
    ensures TrimSpace(TrimSpace(s)) == TrimSpace(s)
  {
    TrimSpaceOfTrimmed(TrimSpace(s));
  }

  /** Trimming leaves `s` unchanged exactly when it has no leading or trailing space. */
  lemma TrimSpaceFixedPoints(s: string)
    ensures TrimSpace(s) == s <==> Trimmed(s)
  {
    if Trimmed(s) {
      TrimSpaceOfTrimmed(s);
    }
  }

  /** The query-row post-processing: its text is trimmed and nothing else changes. */
  function TrimText(q: QueryStat): QueryStat {
    q.(text := TrimSpace(q.text))
  }

  /** The shared decode loop: with `begun` false the read-only transaction could not
      be started. Any iterator error or undecodable row discards everything decoded so
      far; otherwise each row is post-processed by `post`, in iterator order. */
  method Collect<T>(begun: bool, items: seq<Next<T>>, post: T -> T) returns (r: Option<seq<T>>)
    ensures r.Some? <==> begun && forall i :: 0 <= i < |items| ==> items[i].Row?
    ensures r.Some? ==> |r.value| == |items|
    ensures r.Some? ==> forall i :: 0 <= i < |items| ==> r.value[i] == post(items[i].raw)
  {
    if !begun {
      return None;
    }
    var results: seq<T> := [];
    var i := 0;
    while i < |items|
      invariant 0 <= i <= |items|
      invariant forall k :: 0 <= k < i ==> items[k].Row?
      invariant |results| == i
      invariant forall k :: 0 <= k < i ==> results[k] == post(items[k].raw)
    {
      match items[i] {
        case IteratorError =>
          return None;
        case Undecodable =>
          return None;
        case Row(raw) =>
          results := results + [post(raw)];
      }
      i := i + 1;
    }
    return Some(results);
  }

  /** `GetQueryStats`: all-or-nothing decoding with every text trimmed. */
  method GetQueryStats(begun: bool, items: seq<Next<QueryStat>>) returns (r: Option<seq<QueryStat>>)
    ensures r.Some? <==> begun && forall i :: 0 <= i < |items| ==> items[i].Row?
    ensures r.Some? ==> |r.value| == |items|
    ensures r.Some? ==> forall i :: 0 <= i < |items| ==>
      r.value[i] == items[i].raw.(text := TrimSpace(items[i].raw.text))
    ensures r.Some? ==> forall i :: 0 <= i < |items| ==> Trimmed(r.value[i].text)
    ensures r.Some? ==> forall i :: 0 <= i < |items| ==> TrimSpace(r.value[i].text) == r.value[i].text
  {
    r := Collect(begun, items, TrimText);
    if r.Some? {
      forall i | 0 <= i < |items|
        ensures TrimSpace(r.value[i].text) == r.value[i].text
      {
        TrimSpaceIdempotent(items[i].raw.text);
      }
    }
  }

  /** `GetTransactionStats`: all-or-nothing decoding, rows passed through unchanged. */
  method GetTransactionStats(begun: bool, items: seq<Next<TransactionStat>>) returns (r: Option<seq<TransactionStat>>)
    ensures r.Some? <==> begun && forall i :: 0 <= i < |items| ==> items[i].Row?
    ensures r.Some? ==> |r.value| == |items|
    ensures r.Some? ==> forall i :: 0 <= i < |items| ==> r.value[i] == items[i].raw
  {
    r := Collect(begun, items, (t: TransactionStat) => t);
  }
}

=== FILE: granularity.dfy ===
/** The aggregation granularity `statDuration`: a plain integer whose three named
    values select a statistics view by label and fix the polling period. */
module Granularity {
  import opened Wrappers

  /** Go declares `statDuration` as an `int`, so any integer is a value of it. */
  type StatDuration = int

  const StatDurationMin: StatDuration := 0
  const StatDuration10Min: StatDuration := 1
  const StatDurationHour: StatDuration := 2

  /** `time.Duration` is integer nanoseconds. */
  const Second: int := 1_000_000_000
  const Minute: int := 60 * Second
  const Hour: int := 60 * Minute

  /** The view-name suffix: a total map with "minute" as its default. */
  function Label(s: StatDuration): (r: string)
    ensures r == "10minute" <==> s == StatDuration10Min
    ensures r == "hour" <==> s == StatDurationHour
    ensures r == "minute" <==> s != StatDuration10Min && s != StatDurationHour
  {
    if s == StatDuration10Min then "10minute"
    else if s == StatDurationHour then "hour"
    else "minute"
  }

  /** The bucket width and ticker period: a total map with one minute as its default. */
  function Duration(s: StatDuration): (r: int)
    ensures r > 0
    ensures r == 10 * Minute <==> s == StatDuration10Min
    ensures r == Hour <==> s == StatDurationHour
    ensures r == Minute <==> s != StatDuration10Min && s != StatDurationHour
  {
    if s == StatDuration10Min then 10 * Minute
    else if s == StatDurationHour then 1 * Hour
    else 1 * Minute
  }

  /** The named value an integer behaves as: every unnamed integer behaves as `StatDurationMin`. */
  function Canonical(s: StatDuration): StatDuration {
    if s == StatDuration10Min || s == StatDurationHour then s else StatDurationMin
  }

  /** Reads a label back to the named value it belongs to. */
  function ParseLabel(l: string): Option<StatDuration> {
    if l == "minute" then Some(StatDurationMin)
    else if l == "10minute" then Some(StatDuration10Min)
    else if l == "hour" then Some(StatDurationHour)
    else None
  }

  /** The three named granularities have strictly increasing durations. */
  lemma DurationsOrdered()
    ensures Duration(StatDurationMin) < Duration(StatDuration10Min) < Duration(StatDurationHour)
  {
  }

  /** The two defaults agree: a value is labelled "minute" exactly when its duration is one minute. */
  lemma DefaultsAgree(s: StatDuration)
    ensures Label(s) == "minute" <==> Duration(s) == Minute
  {
  }

  /** The label identifies the granularity: parsing it gives back the named value, and
      that value has the same label and the same duration. */
  lemma LabelRoundTrip(s: StatDuration)
    ensures ParseLabel(Label(s)) == Some(Canonical(s))
    ensures Label(Canonical(s)) == Label(s)
    ensures Duration(Canonical(s)) == Duration(s)
  {
  }

  /** Label and duration determine each other. */
  lemma LabelDeterminesDuration(s: StatDuration, t: StatDuration)
    ensures Label(s) == Label(t) <==> Duration(s) == Duration(t)
  {
  }
}

=== FILE: otellabels.dfy ===
/** The label strings the OpenTelemetry writer builds: sanitised query text (one-for-one,
    with no line break left), comma-joined column lists (read back by `Split` when the
    list is non-empty and comma-free) and the rendered sample of lock requests (read back
    by `ParseLockRequests` when the requests are unambiguous). */
module OtelLabels {
  import opened Wrappers
  import opened Rows

  /** The characters the newline replacer rewrites. */
  predicate IsLineBreak(c: char) {
    c == '\r' || c == '\n' || c == '\t'
  }

  /** The replacer `"\r"→" ", "\n"→" ", "\t"→" "`: every rewrite is one character for one. */
  function Sanitize(s: string): (r: string)
    ensures |r| == |s|
    ensures forall i :: 0 <= i < |s| ==> r[i] == (if IsLineBreak(s[i]) then ' ' else s[i])
  {
    if s == [] then [] else [if IsLineBreak(s[0]) then ' ' else s[0]] + Sanitize(s[1..])
  }

  /** Sanitised text holds no `\r`, `\n` or `\t`. */
  lemma SanitizeRemovesLineBreaks(s: string)
    ensures forall i :: 0 <= i < |Sanitize(s)| ==> !IsLineBreak(Sanitize(s)[i])
  {
  }

  /** Sanitising twice is sanitising once. */
  lemma SanitizeIdempotent(s: string)
    ensures Sanitize(Sanitize(s)) == Sanitize(s)
  {
  }

  /** Text without line breaks passes unchanged. */
  lemma SanitizeKeepsClean(s: string)
    requires forall i :: 0 <= i < |s| ==> !IsLineBreak(s[i])
    ensures Sanitize(s) == s
  {
  }

  /** The first position of `c` in `s`, or `|s|`. */
  function IndexOf(s: string, c: char): (n: nat)
    ensures n <= |s|
    ensures c !in s[..n]
    ensures n < |s| ==> s[n] == c
  {
    if s == [] then 0 else if s[0] == c then 0 else 1 + IndexOf(s[1..], c)
  }

  /** The first `c` of `a + [c] + b` is the one after `a` when `a` holds none. */
  lemma {:induction false} IndexOfAfter(a: string, c: char, b: string)
    requires c !in a
    ensures IndexOf(a + [c] + b, c) == |a|
  {
    if a != [] {
      assert (a + [c] + b)[1..] == a[1..] + [c] + b;
      IndexOfAfter(a[1..], c, b);
    }
  }

  /** The total length of the strings in `xs`. */
  function TotalLength(xs: seq<string>): nat {
    if xs == [] then 0 else |xs[0]| + TotalLength(xs[1..])
  }

  /** `strings.Join(xs, ",")`: every element once, in order, with one separator between
      neighbours and none at either end. */
  function Join(xs: seq<string>): (r: string)
    ensures xs == [] ==> r == ""
    ensures |xs| >= 1 ==> |r| == TotalLength(xs) + |xs| - 1
    ensures |xs| >= 1 ==> r[..|xs[0]|] == xs[0]
  {
    if |xs| == 0 then ""
    else if |xs| == 1 then xs[0]
    else xs[0] + "," + Join(xs[1..])
  }

  /** `strings.Split(s, ",")`: always at least one piece. */
  function Split(s: string): (parts: seq<string>)
    ensures |parts| >= 1
    decreases |s|
  {
    var i := IndexOf(s, ',');
    if i == |s| then [s] else [s[..i]] + Split(s[i + 1..])
  }

  predicate CommaFree(x: string) {
    ',' !in x
  }

  /** Joining a list of two or more puts its head, then a separator, then the rest. */
  lemma JoinCons(a: string, rest: seq<string>)
    requires |rest| >= 1
    ensures Join([a] + rest) == a + "," + Join(rest)
  {
    assert ([a] + rest)[1..] == rest;
  }

  /** A string is the part before a separator, the separator and the part after it. */
  lemma SplitAround(s: string, i: nat)
    requires i < |s| && s[i] == ','
    ensures s == s[..i] + "," + s[i + 1..]
  {
  }

  /** Joining is a left inverse of splitting: no separator is added or lost. */
  lemma {:induction false} JoinSplit(s: string)
    ensures Join(Split(s)) == s
    decreases |s|
  {
    var i := IndexOf(s, ',');
    if i < |s| {
      var head, tail := s[..i], s[i + 1..];
      var rest := Split(tail);
      JoinSplit(tail);
      JoinCons(head, rest);
      SplitAround(s, i);
      calc {
        Join(Split(s));
        Join([head] + rest);
        head + "," + Join(rest);
        head + "," + tail;
        s;
      }
    } else {
      assert Split(s) == [s];
    }
  }

  /** Splitting recovers a non-empty list of comma-free columns from its join. */
  lemma {:induction false} SplitJoin(xs: seq<string>)
    requires |xs| >= 1
    requires forall k :: 0 <= k < |xs| ==> CommaFree(xs[k])
    ensures Split(Join(xs)) == xs
  {
    if |xs| == 1 {
      assert IndexOf(xs[0], ',') == |xs[0]|;
    } else {
      var rest := Join(xs[1..]);
      IndexOfAfter(xs[0], ',', rest);
      assert (xs[0] + "," + rest)[..|xs[0]|] == xs[0];
      assert (xs[0] + "," + rest)[|xs[0]| + 1..] == rest;
      SplitJoin(xs[1..]);
    }
  }

  /** The join of the empty list is empty, of a singleton is its element, and a list
      ending in a non-empty element does not end with a separator. */
  lemma JoinEdges(xs: seq<string>)
    ensures xs == [] ==> Join(xs) == ""
    ensures |xs| == 1 ==> Join(xs) == xs[0]
    ensures |xs| >= 1 && xs[|xs| - 1] != "" && CommaFree(xs[|xs| - 1]) ==>
      Join(xs) != [] && Join(xs)[|Join(xs)| - 1] != ','
  {
    if |xs| >= 1 && xs[|xs| - 1] != "" && CommaFree(xs[|xs| - 1]) {
      JoinEndsWithLast(xs);
      var j := Join(xs);
      var last := xs[|xs| - 1];
      assert j[|j| - 1] == j[|j| - |last|..][|last| - 1];
    }
  }

  /** The join ends with the last element. */
  lemma {:induction false} JoinEndsWithLast(xs: seq<string>)
    requires |xs| >= 1
    ensures |Join(xs)| >= |xs[|xs| - 1]|
    ensures Join(xs)[|Join(xs)| - |xs[|xs| - 1]|..] == xs[|xs| - 1]
  {
    if |xs| > 1 {
      JoinEndsWithLast(xs[1..]);
    }
  }

  /** One rendered lock request: `(Column,LockMode),`. */
  function RenderRequest(l: LockRequest): string {
    "(" + l.column + "," + l.lockMode + "),"
  }

  /** The `SampleLockRequests` label: the in-order concatenation of the rendered requests. */
  function RenderLockRequests(reqs: seq<LockRequest>): (r: string)
    ensures reqs == [] <==> r == ""
    ensures reqs != [] ==> |r| >= 2 && r[|r| - 2..] == "),"
  {
    if reqs == [] then "" else RenderRequest(reqs[0]) + RenderLockRequests(reqs[1..])
  }

  /** Rendering distributes over concatenation of request lists. */
  lemma {:induction false} RenderAppend(a: seq<LockRequest>, b: seq<LockRequest>)
    ensures RenderLockRequests(a + b) == RenderLockRequests(a) + RenderLockRequests(b)
  {
    if a != [] {
      assert (a + b)[0] == a[0];
      assert (a + b)[1..] == a[1..] + b;
      RenderAppend(a[1..], b);
    } else {
      assert a + b == b;
    }
  }

  /** A request whose column holds no `,` and whose lock mode holds no `)` can be read back. */
  predicate Unambiguous(l: LockRequest) {
    ',' !in l.column && ')' !in l.lockMode
  }

  /** Reads a `SampleLockRequests` label back into its requests. */
  function ParseLockRequests(s: string): Option<seq<LockRequest>>
    decreases |s|
  {
    if s == [] then Some([])
    else if s[0] != '(' then None
    else
      var body := s[1..];
      var i := IndexOf(body, ',');
      if i == |body| then None
      else
        var rest := body[i + 1..];
        var j := IndexOf(rest, ')');
        if j + 1 >= |rest| || rest[j + 1] != ',' then None
        else
          var more :- ParseLockRequests(rest[j + 2..]);
          Some([LockRequest(body[..i], rest[..j])] + more)
  }

  /** Where the first `,` of a rendered request falls, and what follows it. */
  lemma RenderedColumn(l: LockRequest, tail: string)
    requires Unambiguous(l)
    ensures var s := RenderRequest(l) + tail;
      && s != [] && s[0] == '('
      && IndexOf(s[1..], ',') == |l.column| < |s[1..]|
      && s[1..][..|l.column|] == l.column
      && s[1..][|l.column| + 1..] == l.lockMode + ")," + tail
  {
    var s := RenderRequest(l) + tail;
    var rest := l.lockMode + ")," + tail;
    assert s == ['('] + (l.column + [','] + rest);
    IndexOfAfter(l.column, ',', rest);
  }

  /** Where the first `)` after the column falls, and what follows it. */
  lemma RenderedLockMode(l: LockRequest, tail: string)
    requires Unambiguous(l)
    ensures var rest := l.lockMode + ")," + tail;
      && IndexOf(rest, ')') == |l.lockMode|
      && |l.lockMode| + 1 < |rest| && rest[|l.lockMode| + 1] == ','
      && rest[..|l.lockMode|] == l.lockMode
      && rest[|l.lockMode| + 2..] == tail
  {
    var rest := l.lockMode + ")," + tail;
    assert rest == l.lockMode + [')'] + ("," + tail);
    IndexOfAfter(l.lockMode, ')', "," + tail);
  }

  /** Parsing one rendered request followed by anything. */
  lemma ParseRenderedRequest(l: LockRequest, tail: string)
    requires Unambiguous(l)
    ensures ParseLockRequests(RenderRequest(l) + tail) ==
      (match ParseLockRequests(tail) case None => None case Some(more) => Some([l] + more))
  {
    RenderedColumn(l, tail);
    RenderedLockMode(l, tail);
  }

  /** The label is readable: parsing a rendering of unambiguous requests gives them back. */
  lemma {:induction false} ParseRender(reqs: seq<LockRequest>)
    requires forall k :: 0 <= k < |reqs| ==> Unambiguous(reqs[k])
    ensures ParseLockRequests(RenderLockRequests(reqs)) == Some(reqs)
  {
    if reqs != [] {
      var tail := RenderLockRequests(reqs[1..]);
      assert RenderLockRequests(reqs) == RenderRequest(reqs[0]) + tail;
      ParseRender(reqs[1..]);
      ParseRenderedRequest(reqs[0], tail);
      assert [reqs[0]] + reqs[1..] == reqs;
    }
  }
}

=== FILE: otelwriter.dfy ===
/** The OpenTelemetry writer: the instruments `NewOpenTelemetryWriter` registers and the
    batch `Write` records for each row. */
module OtelWriter {
  import opened Wrappers
  import opened Rows
  import opened OtelLabels

  const QueryMeterName: string := "spanner.stats.query"
  const TransactionMeterName: string := "spanner.stats.transaction"
  const LockMeterName: string := "spanner.stats.lock"

  datatype InstrumentKind = Int64Measure | Int64Counter | Float64Measure

  /** An instrument: the meter that created it, its kind and its registered name. */
  datatype Instrument = Instrument(owner: string, kind: InstrumentKind, name: string)

  datatype QueryMeasures = QueryMeasures(
    intervalEnd: Instrument,
    executionCount: Instrument,
    avgLatencySeconds: Instrument,
    avgRows: Instrument,
    avgBytes: Instrument,
    avgRowsScanned: Instrument,
    avgCpuSeconds: Instrument)

  datatype TransactionMeasures = TransactionMeasures(
    intervalEnd: Instrument,
    commitAttemptCount: Instrument,
    commitFailedPreconditionCount: Instrument,
    commitAbortCount: Instrument,
    avgParticipants: Instrument,
    avgTotalLatencySeconds: Instrument,
    avgCommitLatencySeconds: Instrument,
    avgBytes: Instrument)

  datatype LockMeasures = LockMeasures(intervalEnd: Instrument, lockWaitSeconds: Instrument)

  /** Per kind: the meter `RecordBatch` is called on, and the instruments. */
  datatype Writer = Writer(
    queryMeter: string, query: QueryMeasures,
    transactionMeter: string, transaction: TransactionMeasures,
    lockMeter: string, lock: LockMeasures)

  function QueryInstruments(m: QueryMeasures): seq<Instrument> {
    [m.intervalEnd, m.executionCount, m.avgLatencySeconds, m.avgRows, m.avgBytes, m.avgRowsScanned, m.avgCpuSeconds]
  }

  function TransactionInstruments(m: TransactionMeasures): seq<Instrument> {
    [m.intervalEnd, m.commitAttemptCount, m.commitFailedPreconditionCount, m.commitAbortCount,
     m.avgParticipants, m.avgTotalLatencySeconds, m.avgCommitLatencySeconds, m.avgBytes]
  }

  function LockInstruments(m: LockMeasures): seq<Instrument> {
    [m.intervalEnd, m.lockWaitSeconds]
  }

  /** `name` starts with `prefix` followed by a dot. */
  predicate NamedUnder(name: string, prefix: string) {
    |prefix| < |name| && name[..|prefix|] == prefix && name[|prefix|] == '.'
  }

  /** An instrument name made of a meter prefix, a dot and a field name: the prefix
      and the field can be read back from it. */
  function Qualified(prefix: string, field: string): (name: string)
    ensures NamedUnder(name, prefix)
    ensures name[|prefix| + 1..] == field
  {
    var name := prefix + "." + field;
    assert name[..|prefix|] == prefix;
    assert name[|prefix| + 1..] == field;
    name
  }

  /** A name under one prefix is not under another that differs from it at a shared position. */
  lemma PrefixesExclude(a: string, p: string, q: string, k: nat)
    requires NamedUnder(a, p)
    requires k < |p| && k < |q| && p[k] != q[k]
    ensures !NamedUnder(a, q)
  {
    assert a[k] == a[..|p|][k] == p[k];
  }

  /** Hence two names under such prefixes differ. */
  lemma PrefixesSeparate(a: string, p: string, b: string, q: string, k: nat)
    requires NamedUnder(a, p) && NamedUnder(b, q)
    requires k < |p| && k < |q| && p[k] != q[k]
    ensures a != b
  {
    PrefixesExclude(a, p, q, k);
  }

  predicate AllNamedUnder(xs: seq<Instrument>, prefix: string) {
    forall i :: 0 <= i < |xs| ==> NamedUnder(xs[i].name, prefix)
  }

  predicate AllOwnedBy(xs: seq<Instrument>, meter: string) {
    forall i :: 0 <= i < |xs| ==> xs[i].owner == meter
  }

  /** The field part of each instrument name and each instrument's kind, in the order
      the measures are declared and measured. */
  const QueryFieldNames: seq<string> := [
    "IntervalEnd", "ExecutionCount", "AvgLatencySeconds", "AvgRows", "AvgBytes", "AvgRowsScanned", "AvgCpuSeconds"]
  const QueryKinds: seq<InstrumentKind> := [
    Int64Measure, Int64Counter, Float64Measure, Float64Measure, Float64Measure, Float64Measure, Float64Measure]
  const TransactionFieldNames: seq<string> := [
    "IntervalEnd", "CommitAttemptCount", "CommitFailedPreconditionCount", "CommitAbortCount",
    "AvgParticipants", "AvgTotalLatencySeconds", "AvgCommitLatencySeconds", "AvgBytes"]
  const TransactionKinds: seq<InstrumentKind> := [
    Int64Measure, Int64Measure, Int64Measure, Int64Measure, Float64Measure, Float64Measure, Float64Measure, Float64Measure]

  /** Each instrument is named `prefix + "." + fields[i]` and has kind `kinds[i]`. */
  predicate Spelled(xs: seq<Instrument>, prefix: string, fields: seq<string>, kinds: seq<InstrumentKind>) {
    && |xs| == |fields| == |kinds|
    && forall i :: 0 <= i < |xs| ==>
         && NamedUnder(xs[i].name, prefix)
         && xs[i].name[|prefix| + 1..] == fields[i]
         && xs[i].kind == kinds[i]
  }

  function QueryMeasuresUnder(prefix: string): (m: QueryMeasures)
    ensures Spelled(QueryInstruments(m), prefix, QueryFieldNames, QueryKinds)
    ensures AllNamedUnder(QueryInstruments(m), prefix)
    ensures AllOwnedBy(QueryInstruments(m), QueryMeterName)
  {
    var o := QueryMeterName;
    QueryMeasures(
      Instrument(o, Int64Measure, Qualified(prefix, "IntervalEnd")),
      Instrument(o, Int64Counter, Qualified(prefix, "ExecutionCount")),
      Instrument(o, Float64Measure, Qualified(prefix, "AvgLatencySeconds")),
      Instrument(o, Float64Measure, Qualified(prefix, "AvgRows")),
      Instrument(o, Float64Measure, Qualified(prefix, "AvgBytes")),
      Instrument(o, Float64Measure, Qualified(prefix, "AvgRowsScanned")),
      Instrument(o, Float64Measure, Qualified(prefix, "AvgCpuSeconds")))
  }

  function TransactionMeasuresUnder(prefix: string): (m: TransactionMeasures)
    ensures Spelled(TransactionInstruments(m), prefix, TransactionFieldNames, TransactionKinds)
    ensures AllNamedUnder(TransactionInstruments(m), prefix)
    ensures AllOwnedBy(TransactionInstruments(m), TransactionMeterName)
  {
    var o := TransactionMeterName;
    TransactionMeasures(
      Instrument(o, Int64Measure, Qualified(prefix, "IntervalEnd")),
      Instrument(o, Int64Measure, Qualified(prefix, "CommitAttemptCount")),
      Instrument(o, Int64Measure, Qualified(prefix, "CommitFailedPreconditionCount")),
      Instrument(o, Int64Measure, Qualified(prefix, "CommitAbortCount")),
      Instrument(o, Float64Measure, Qualified(prefix, "AvgParticipants")),
      Instrument(o, Float64Measure, Qualified(prefix, "AvgTotalLatencySeconds")),
      Instrument(o, Float64Measure, Qualified(prefix, "AvgCommitLatencySeconds")),
      Instrument(o, Float64Measure, Qualified(prefix, "AvgBytes")))
  }

  /** The lock's `IntervalEnd` is an integer measure named under `endPrefix`, and its
      `LockWaitSeconds` a float measure named under `waitPrefix`. */
  predicate LockSpelled(m: LockMeasures, endPrefix: string, waitPrefix: string) {
    && NamedUnder(m.intervalEnd.name, endPrefix)
    && m.intervalEnd.name[|endPrefix| + 1..] == "IntervalEnd" && m.intervalEnd.kind == Int64Measure
    && NamedUnder(m.lockWaitSeconds.name, waitPrefix)
    && m.lockWaitSeconds.name[|waitPrefix| + 1..] == "LockWaitSeconds" && m.lockWaitSeconds.kind == Float64Measure
  }

  function LockMeasuresUnder(endPrefix: string, waitPrefix: string): (m: LockMeasures)
    ensures NamedUnder(m.intervalEnd.name, endPrefix) && NamedUnder(m.lockWaitSeconds.name, waitPrefix)
    ensures LockSpelled(m, endPrefix, waitPrefix)
    ensures AllOwnedBy(LockInstruments(m), LockMeterName)
  {
    LockMeasures(
      Instrument(LockMeterName, Int64Measure, Qualified(endPrefix, "IntervalEnd")),
      Instrument(LockMeterName, Float64Measure, Qualified(waitPrefix, "LockWaitSeconds")))
  }

  /** `NewOpenTelemetryWriter` as written: every transaction instrument and the lock's
      `LockWaitSeconds` are named under the query meter's prefix, and lock batches are
      recorded on the transaction meter. */
  function NewOpenTelemetryWriter(): (w: Writer)
    ensures w.queryMeter == QueryMeterName && w.transactionMeter == TransactionMeterName
    ensures w.lockMeter == TransactionMeterName
    ensures AllOwnedBy(QueryInstruments(w.query), QueryMeterName)
    ensures AllOwnedBy(TransactionInstruments(w.transaction), TransactionMeterName)
    ensures AllOwnedBy(LockInstruments(w.lock), LockMeterName)
    ensures AllNamedUnder(QueryInstruments(w.query), QueryMeterName)
    ensures AllNamedUnder(TransactionInstruments(w.transaction), QueryMeterName)
    ensures NamedUnder(w.lock.intervalEnd.name, LockMeterName)
    ensures NamedUnder(w.lock.lockWaitSeconds.name, QueryMeterName)
    ensures Spelled(QueryInstruments(w.query), QueryMeterName, QueryFieldNames, QueryKinds)
    ensures Spelled(TransactionInstruments(w.transaction), QueryMeterName, TransactionFieldNames, TransactionKinds)
    ensures LockSpelled(w.lock, LockMeterName, QueryMeterName)
  {
    var w := Writer(
      QueryMeterName, QueryMeasuresUnder(QueryMeterName),
      TransactionMeterName, TransactionMeasuresUnder(QueryMeterName),
      TransactionMeterName, LockMeasuresUnder(LockMeterName, QueryMeterName));
    w
  }

  /** The writer the meter names evidently intend: each kind's instruments named under,
      and recorded on, its own meter. */
  function IntendedOpenTelemetryWriter(): (w: Writer)
    ensures w.queryMeter == QueryMeterName && w.transactionMeter == TransactionMeterName
    ensures w.lockMeter == LockMeterName
    ensures AllOwnedBy(QueryInstruments(w.query), w.queryMeter)
    ensures AllOwnedBy(TransactionInstruments(w.transaction), w.transactionMeter)
    ensures AllOwnedBy(LockInstruments(w.lock), w.lockMeter)
    ensures AllNamedUnder(QueryInstruments(w.query), QueryMeterName)
    ensures AllNamedUnder(TransactionInstruments(w.transaction), TransactionMeterName)
    ensures AllNamedUnder(LockInstruments(w.lock), LockMeterName)
    ensures Spelled(QueryInstruments(w.query), QueryMeterName, QueryFieldNames, QueryKinds)
    ensures Spelled(TransactionInstruments(w.transaction), TransactionMeterName, TransactionFieldNames, TransactionKinds)
    ensures LockSpelled(w.lock, LockMeterName, LockMeterName)
  {
    var w := Writer(
      QueryMeterName, QueryMeasuresUnder(QueryMeterName),
      TransactionMeterName, TransactionMeasuresUnder(TransactionMeterName),
      LockMeterName, LockMeasuresUnder(LockMeterName, LockMeterName));
    w
  }

  /** As written, the query and transaction writers register the same names
      `spanner.stats.query.IntervalEnd` and `spanner.stats.query.AvgBytes`. */
  lemma InstrumentNamesCollide()
    ensures NewOpenTelemetryWriter().query.intervalEnd.name == NewOpenTelemetryWriter().transaction.intervalEnd.name
    ensures NewOpenTelemetryWriter().query.avgBytes.name == NewOpenTelemetryWriter().transaction.avgBytes.name
    ensures NewOpenTelemetryWriter().query.intervalEnd.owner != NewOpenTelemetryWriter().transaction.intervalEnd.owner
  {
  }

  /** As written, lock batches go through a meter other than the one owning the lock
      instruments, and `LockWaitSeconds` is not named under the lock meter. */
  lemma LockMeterMismatch()
    ensures NewOpenTelemetryWriter().lockMeter != NewOpenTelemetryWriter().lock.intervalEnd.owner
    ensures !NamedUnder(NewOpenTelemetryWriter().lock.lockWaitSeconds.name, LockMeterName)
  {
    var w := NewOpenTelemetryWriter();
    PrefixesExclude(w.lock.lockWaitSeconds.name, QueryMeterName, LockMeterName, 14);
  }

  /** Names under the three meter prefixes never coincide: the prefixes differ at position 14. */
  lemma MeterPrefixesSeparate(xs: seq<Instrument>, p: string, ys: seq<Instrument>, q: string)
    requires AllNamedUnder(xs, p) && AllNamedUnder(ys, q)
    requires p in {QueryMeterName, TransactionMeterName, LockMeterName}
    requires q in {QueryMeterName, TransactionMeterName, LockMeterName}
    requires p != q
    ensures forall i, j :: 0 <= i < |xs| && 0 <= j < |ys| ==> xs[i].name != ys[j].name
  {
    assert QueryMeterName[14] == 'q' && TransactionMeterName[14] == 't' && LockMeterName[14] == 'l';
    forall i, j | 0 <= i < |xs| && 0 <= j < |ys|
      ensures xs[i].name != ys[j].name
    {
      PrefixesSeparate(xs[i].name, p, ys[j].name, q, 14);
    }
  }

  /** In the intended writer no two kinds share an instrument name. */
  lemma IntendedNamesDistinct()
    ensures var w := IntendedOpenTelemetryWriter();
      var qs := QueryInstruments(w.query);
      var ts := TransactionInstruments(w.transaction);
      var ls := LockInstruments(w.lock);
      && (forall i, j :: 0 <= i < |qs| && 0 <= j < |ts| ==> qs[i].name != ts[j].name)
      && (forall i, j :: 0 <= i < |qs| && 0 <= j < |ls| ==> qs[i].name != ls[j].name)
      && (forall i, j :: 0 <= i < |ts| && 0 <= j < |ls| ==> ts[i].name != ls[j].name)
  {
    var w := IntendedOpenTelemetryWriter();
    var qs := QueryInstruments(w.query);
    var ts := TransactionInstruments(w.transaction);
    var ls := LockInstruments(w.lock);
    MeterPrefixesSeparate(qs, QueryMeterName, ts, TransactionMeterName);
    MeterPrefixesSeparate(qs, QueryMeterName, ls, LockMeterName);
    MeterPrefixesSeparate(ts, TransactionMeterName, ls, LockMeterName);
  }

  // The values handed to `Labels` and `Measurement`.

  /** A label value: a Go string of characters, a Go string made of raw bytes, or an int64. */
  datatype LabelValue = Text(s: string) | Bytes(bs: seq<byte>) | Int(i: int64)

  datatype Label = Label(key: string, value: LabelValue)

  /** `IntervalEnd.UnixNano()` and the int64 counts are integers; the averages are floats. */
  datatype MeasureValue = IntValue(v: int) | FloatValue(f: Float64)

  datatype Measurement = Measurement(instrument: Instrument, value: MeasureValue)

  /** One `RecordBatch` call: the meter, the labels and the measurements. */
  datatype Batch = Batch(meter: string, labels: seq<Label>, measurements: seq<Measurement>)

  /** The meter a row's batch is recorded on. */
  function MeterFor(w: Writer, s: Stat): string {
    match s
    case Query(_) => w.queryMeter
    case Transaction(_) => w.transactionMeter
    case Lock(_) => w.lockMeter
  }

  /** The instruments a row's batch measures, in call order. */
  function InstrumentsFor(w: Writer, s: Stat): seq<Instrument> {
    match s
    case Query(_) => QueryInstruments(w.query)
    case Transaction(_) => TransactionInstruments(w.transaction)
    case Lock(_) => LockInstruments(w.lock)
  }

  /** The measured values of a batch, in call order. */
  function Values(b: Batch): (vs: seq<MeasureValue>)
    ensures |vs| == |b.measurements|
    ensures forall i :: 0 <= i < |vs| ==> vs[i] == b.measurements[i].value
  {
    seq(|b.measurements|, i requires 0 <= i < |b.measurements| => b.measurements[i].value)
  }

  /** The batch recorded for one row: the i-th instrument of its kind measures the
      row field of the same name, and the labels carry the row's key dimensions. */
  function Record(w: Writer, s: Stat): (b: Batch)
    ensures b.meter == MeterFor(w, s)
    ensures |b.measurements| == |InstrumentsFor(w, s)|
    ensures forall i :: 0 <= i < |b.measurements| ==> b.measurements[i].instrument == InstrumentsFor(w, s)[i]
    ensures b.measurements[0].value == IntValue(s.IntervalEnd())
    ensures s.Query? ==>
      var q := s.query;
      && b.labels == [Label("Text", Text(Sanitize(q.text))), Label("TextFingerprint", Int(q.textFingerprint))]
      && Values(b) == [IntValue(q.intervalEnd), IntValue(q.executionCount as int),
                       FloatValue(q.avgLatencySeconds), FloatValue(q.avgRows), FloatValue(q.avgBytes),
                       FloatValue(q.avgRowsScanned), FloatValue(q.avgCpuSeconds)]
    ensures s.Transaction? ==>
      var t := s.transaction;
      && b.labels == [Label("ReadColumns", Text(Join(t.readColumns))),
                      Label("WriteConstructiveColumns", Text(Join(t.writeConstructiveColumns))),
                      Label("WriteDeleteTables", Text(Join(t.writeDeleteTables))),
                      Label("Fprint", Int(t.fprint))]
      && Values(b) == [IntValue(t.intervalEnd), IntValue(t.commitAttemptCount as int),
                       IntValue(t.commitFailedPreconditionCount as int), IntValue(t.commitAbortCount as int),
                       FloatValue(t.avgParticipants), FloatValue(t.avgTotalLatencySeconds),
                       FloatValue(t.avgCommitLatencySeconds), FloatValue(t.avgBytes)]
    ensures s.Lock? ==>
      var l := s.lock;
      && b.labels == [Label("RowRangeStartKey", Bytes(l.rowRangeStartKey)),
                      Label("SampleLockRequests", Text(RenderLockRequests(l.sampleLockRequests)))]
      && Values(b) == [IntValue(l.intervalEnd), FloatValue(l.lockWaitSeconds)]
  {
    match s
    case Query(q) =>
      Batch(w.queryMeter,
        [Label("Text", Text(Sanitize(q.text))), Label("TextFingerprint", Int(q.textFingerprint))],
        [Measurement(w.query.intervalEnd, IntValue(q.intervalEnd)),
         Measurement(w.query.executionCount, IntValue(q.executionCount as int)),
         Measurement(w.query.avgLatencySeconds, FloatValue(q.avgLatencySeconds)),
         Measurement(w.query.avgRows, FloatValue(q.avgRows)),
         Measurement(w.query.avgBytes, FloatValue(q.avgBytes)),
         Measurement(w.query.avgRowsScanned, FloatValue(q.avgRowsScanned)),
         Measurement(w.query.avgCpuSeconds, FloatValue(q.avgCpuSeconds))])
    case Transaction(t) =>
      Batch(w.transactionMeter,
        [Label("ReadColumns", Text(Join(t.readColumns))),
         Label("WriteConstructiveColumns", Text(Join(t.writeConstructiveColumns))),
         Label("WriteDeleteTables", Text(Join(t.writeDeleteTables))),
         Label("Fprint", Int(t.fprint))],
        [Measurement(w.transaction.intervalEnd, IntValue(t.intervalEnd)),
         Measurement(w.transaction.commitAttemptCount, IntValue(t.commitAttemptCount as int)),
         Measurement(w.transaction.commitFailedPreconditionCount, IntValue(t.commitFailedPreconditionCount as int)),
         Measurement(w.transaction.commitAbortCount, IntValue(t.commitAbortCount as int)),
         Measurement(w.transaction.avgParticipants, FloatValue(t.avgParticipants)),
         Measurement(w.transaction.avgTotalLatencySeconds, FloatValue(t.avgTotalLatencySeconds)),
         Measurement(w.transaction.avgCommitLatencySeconds, FloatValue(t.avgCommitLatencySeconds)),
         Measurement(w.transaction.avgBytes, FloatValue(t.avgBytes))])
    case Lock(l) =>
      Batch(w.lockMeter,
        [Label("RowRangeStartKey", Bytes(l.rowRangeStartKey)),
         Label("SampleLockRequests", Text(RenderLockRequests(l.sampleLockRequests)))],
        [Measurement(w.lock.intervalEnd, IntValue(l.intervalEnd)),
         Measurement(w.lock.lockWaitSeconds, FloatValue(l.lockWaitSeconds))])
  }

  /** The query Text label is the text with its line breaks turned into spaces, and
      holds none of them. */
  lemma QueryLabelsReadable(w: Writer, q: QueryStat)
    ensures Record(w, Query(q)).labels[0] == Label("Text", Text(Sanitize(q.text)))
    ensures Record(w, Query(q)).labels[1] == Label("TextFingerprint", Int(q.textFingerprint))
    ensures forall i :: 0 <= i < |Sanitize(q.text)| ==> !IsLineBreak(Sanitize(q.text)[i])
  {
    SanitizeRemovesLineBreaks(q.text);
  }

  predicate AllCommaFree(xs: seq<string>) {
    forall k :: 0 <= k < |xs| ==> CommaFree(xs[k])
  }

  /** Each column-list label splits back into its list when the list is non-empty and
      its names hold no comma. */
  lemma TransactionLabelsReadable(w: Writer, t: TransactionStat)
    ensures var labels := Record(w, Transaction(t)).labels;
      && (|t.readColumns| >= 1 && AllCommaFree(t.readColumns) ==>
            labels[0].key == "ReadColumns" && Split(labels[0].value.s) == t.readColumns)
      && (|t.writeConstructiveColumns| >= 1 && AllCommaFree(t.writeConstructiveColumns) ==>
            labels[1].key == "WriteConstructiveColumns" && Split(labels[1].value.s) == t.writeConstructiveColumns)
      && (|t.writeDeleteTables| >= 1 && AllCommaFree(t.writeDeleteTables) ==>
            labels[2].key == "WriteDeleteTables" && Split(labels[2].value.s) == t.writeDeleteTables)
  {
    if |t.readColumns| >= 1 && AllCommaFree(t.readColumns) {
      SplitJoin(t.readColumns);
    }
    if |t.writeConstructiveColumns| >= 1 && AllCommaFree(t.writeConstructiveColumns) {
      SplitJoin(t.writeConstructiveColumns);
    }
    if |t.writeDeleteTables| >= 1 && AllCommaFree(t.writeDeleteTables) {
      SplitJoin(t.writeDeleteTables);
    }
  }

  /** The lock labels carry the start key's bytes unchanged, and the rendered requests
      parse back when every column is free of `,` and every mode of `)`. */
  lemma LockLabelsReadable(w: Writer, l: LockStat)
    requires forall k :: 0 <= k < |l.sampleLockRequests| ==> Unambiguous(l.sampleLockRequests[k])
    ensures Record(w, Lock(l)).labels[0] == Label("RowRangeStartKey", Bytes(l.rowRangeStartKey))
    ensures Record(w, Lock(l)).labels[1].key == "SampleLockRequests"
    ensures ParseLockRequests(Record(w, Lock(l)).labels[1].value.s) == Some(l.sampleLockRequests)
  {
    ParseRender(l.sampleLockRequests);
  }

  /** `Write`: one batch per row, in row order. */
  method Write(w: Writer, stats: seq<Stat>) returns (batches: seq<Batch>)
    ensures |batches| == |stats|
    ensures forall i :: 0 <= i < |stats| ==> batches[i] == Record(w, stats[i])
  {
    batches := [];
    for i := 0 to |stats|
      invariant |batches| == i
      invariant forall k :: 0 <= k < i ==> batches[k] == Record(w, stats[k])
    {
      batches := batches + [Record(w, stats[i])];
    }
  }
}

=== FILE: rows.dfy ===
/** The statistic rows read from the database's introspection views.
    Each Go struct becomes a datatype; the `stat` interface the writers switch on
    becomes the closed union `Stat`. */
module Rows {

  /** Go's `int64`. */
  newtype int64 = x: int | -0x8000_0000_0000_0000 <= x < 0x8000_0000_0000_0000

  /** Go's `byte`. */
  newtype byte = x: int | 0 <= x < 0x100

  /** A Go `float64`, carried by its IEEE-754 bit pattern. No arithmetic is modelled on it. */
  datatype Float64 = Float64(bits: bv64)

  /** A `time.Time`, as integer nanoseconds since the Unix epoch. */
  type Time = int

  /** One row of `spanner_sys.query_stats_top_*`. */
  datatype QueryStat = QueryStat(
    intervalEnd: Time,
    text: string,
    textTruncated: bool,
    textFingerprint: int64,
    executionCount: int64,
    avgLatencySeconds: Float64,
    avgRows: Float64,
    avgBytes: Float64,
    avgRowsScanned: Float64,
    avgCpuSeconds: Float64)

  /** One row of `spanner_sys.txn_stats_top_*`. */
  datatype TransactionStat = TransactionStat(
    intervalEnd: Time,
    fprint: int64,
    readColumns: seq<string>,
    writeConstructiveColumns: seq<string>,
    writeDeleteTables: seq<string>,
    commitAttemptCount: int64,
    commitFailedPreconditionCount: int64,
    commitAbortCount: int64,
    avgParticipants: Float64,
    avgTotalLatencySeconds: Float64,
    avgCommitLatencySeconds: Float64,
    avgBytes: Float64)

  /** One element of a lock row's sample of lock requests. */
  datatype LockRequest = LockRequest(column: string, lockMode: string)

  /** One row of the lock statistics, with the fields the writers read. */
  datatype LockStat = LockStat(
    intervalEnd: Time,
    rowRangeStartKey: seq<byte>,
    lockWaitSeconds: Float64,
    sampleLockRequests: seq<LockRequest>)

  /** The `stat` values handed to a writer: one variant per statistic kind. */
  datatype Stat =
    | Query(query: QueryStat)
    | Transaction(transaction: TransactionStat)
    | Lock(lock: LockStat)
  {
    /** The accessor every variant shares: the end of its aggregation interval. */
    function IntervalEnd(): Time {
      match this
      case Query(q) => q.intervalEnd
      case Transaction(t) => t.intervalEnd
      case Lock(l) => l.intervalEnd
    }
  }
}

=== FILE: worker.dfy ===
/** The `Worker`: its initial watermark, the `Start` loop as a state machine over a
    trace of the events its `select` observes, and `Stop`. */
module Worker {
  import opened Wrappers
  import opened Rows
  import opened Granularity
  import Dedup

  /** What the `select` in `Start` can observe: the ticker firing, the parent
      context's cancellation, or the worker's own context cancelled by `Stop`. */
  datatype Event = Timer | ParentCancel | LocalCancel

  /** The worker state the model keeps: granularity, watermark, and whether `Start`
      has installed the cancel function `Stop` calls. */
  datatype Worker = Worker(statType: StatDuration, lastIntervalEnd: Time, started: bool)

  /** `NewWorker` at wall-clock time `now`: the watermark starts two periods back. */
  function NewWorker(now: Time, statType: StatDuration): (w: Worker)
    ensures w.statType == statType && !w.started
    ensures now - w.lastIntervalEnd == 2 * Duration(statType)
    ensures w.lastIntervalEnd < now - Duration(statType)
  {
    Worker(statType, now - 2 * Duration(statType), false)
  }

  /** A fresh worker's first tick catches the interval that closed one period ago. */
  lemma FreshStartCatchUp(now: Time, statType: StatDuration, rows: seq<Stat>)
    requires rows != [] && Dedup.Newest(rows) == now - Duration(statType)
    ensures Dedup.Tick(rows, NewWorker(now, statType).lastIntervalEnd, true).written.Some?
    ensures rows[0] in Dedup.Tick(rows, NewWorker(now, statType).lastIntervalEnd, true).written.value
  {
  }

  /** How many ticks the loop ran and, if a cancellation was observed, at which event
      it returned (`None`: still waiting when the trace ends). */
  datatype Run = Run(ticks: nat, returnedAt: Option<nat>)

  /** The `for { select … }` loop: one tick per timer event, return on the first
      cancellation of either context. */
  function Loop(events: seq<Event>): (r: Run)
    ensures r.returnedAt.Some? <==> exists k :: 0 <= k < |events| && events[k] != Timer
    ensures r.returnedAt.Some? ==> r.returnedAt.value < |events| && events[r.returnedAt.value] != Timer
    ensures forall k :: 0 <= k < |events| && (r.returnedAt.None? || k < r.returnedAt.value) ==> events[k] == Timer
    ensures r.ticks == if r.returnedAt.Some? then r.returnedAt.value else |events|
  {
    if events == [] then Run(0, None)
    else if events[0] != Timer then Run(0, Some(0))
    else
      var r := Loop(events[1..]);
      Run(r.ticks + 1, if r.returnedAt.Some? then Some(r.returnedAt.value + 1) else None)
  }

  /** `Start`: installs the cancel function, runs one tick at once, then the loop.
      The ticker period is the granularity's duration. A session records whether the
      cancel function is installed, not the watermark, which the ticks move. */
  datatype Session = Session(statType: StatDuration, started: bool, period: int, run: Run)

  function Start(w: Worker, events: seq<Event>): (s: Session)
    ensures s.statType == w.statType && s.started
    ensures s.period == Duration(w.statType) && s.period >= Minute
    ensures s.run.returnedAt == Loop(events).returnedAt
    ensures s.run.ticks >= 1
    ensures s.run.ticks == 1 + (if s.run.returnedAt.Some? then s.run.returnedAt.value else |events|)
    ensures s.run.ticks == 1 + |events| <==> forall k :: 0 <= k < |events| ==> events[k] == Timer
  {
    var r := Loop(events);
    Session(w.statType, true, Duration(w.statType), Run(1 + r.ticks, r.returnedAt))
  }

  /** `n` ticker events in a row. */
  function Timers(n: nat): (es: seq<Event>)
    ensures |es| == n && forall k :: 0 <= k < n ==> es[k] == Timer
  {
    if n == 0 then [] else [Timer] + Timers(n - 1)
  }

  /** Events after the loop has returned are never observed. */
  lemma {:induction false} EventsAfterReturnIgnored(events: seq<Event>, later: seq<Event>)
    requires Loop(events).returnedAt.Some?
    ensures Loop(events + later) == Loop(events)
  {
    if events[0] == Timer {
      assert (events + later)[1..] == events[1..] + later;
      EventsAfterReturnIgnored(events[1..], later);
    }
  }

  /** `n` timer events followed by a cancellation give exactly `n + 1` ticks, whatever follows. */
  lemma CancelAfterTimers(w: Worker, n: nat, cancel: Event, later: seq<Event>)
    requires cancel != Timer
    ensures Start(w, Timers(n) + [cancel] + later).run == Run(n + 1, Some(n))
  {
    var events := Timers(n) + [cancel];
    assert events[n] == cancel;
    var r := Loop(events);
    assert r.returnedAt.Some?;
    var at := r.returnedAt.value;
    assert at == n;
    EventsAfterReturnIgnored(events, later);
    assert Timers(n) + [cancel] + later == events + later;
  }

  /** What `Stop` does: before `Start` the cancel function is nil and calling it panics;
      afterwards it cancels the worker's context, which the loop sees as `LocalCancel`. */
  datatype StopOutcome = Cancelled(event: Event) | NilCancelPanic

  function Stop(started: bool): (r: StopOutcome)
    ensures r.Cancelled? <==> started
    ensures r.Cancelled? ==> r.event == LocalCancel && Loop([r.event]).returnedAt == Some(0)
  {
    if started then Cancelled(LocalCancel) else NilCancelPanic
  }
}

=== FILE: wrappers.dfy ===
/** Failure-compatible wrapper used where the source returns a nil slice. */
module Wrappers {

  /** `None` stands for a Go nil slice or nil result; `Some` for a present value. */
  datatype Option<+T> = None | Some(value: T) {

    predicate IsFailure() {
      None?
    }

    function PropagateFailure<U>(): Option<U>
      requires None?
    {
      None
    }

    function Extract(): T
      requires Some?
    {
      value
    }

    /** Returns the wrapped value, or `default` for `None`. */
    function GetOr(default: T): T {
      match this
      case Some(v) => v
      case None => default
    }
  }
}

=== FILE: zapwriter.dfy ===
/** The structured-log writer: one `logger.Info` record per row, its fields tagged
    with the row's variant. */
module ZapWriter {
  import opened Wrappers
  import opened Rows

  /** The typed values the writer hands to zap's field constructors. */
  datatype FieldValue =
    | Str(s: string)
    | TimeValue(t: Time)
    | Boolean(b: bool)
    | Int64(i: int64)
    | Float(f: Float64)
    | Strings(ss: seq<string>)
    | ByteString(bs: seq<byte>)
    | Any(requests: seq<LockRequest>)

  datatype Field = Field(key: string, value: FieldValue)

  /** One log record: the message and its fields. */
  datatype Record = Record(message: string, fields: seq<Field>)

  const Message: string := "spanner stats"

  /** The `type` tag of each variant. */
  function TypeName(s: Stat): string {
    match s
    case Query(_) => "QueryStat"
    case Transaction(_) => "TransactionStat"
    case Lock(_) => "LockStat"
  }

  /** `getFields`: the fields of one row, `type` first and `IntervalEnd` second. Every
      field of the row is present, so the row can be read back from its record. */
  function GetFields(s: Stat): (fs: seq<Field>)
    ensures |fs| >= 2
    ensures fs[0] == Field("type", Str(TypeName(s)))
    ensures fs[1] == Field("IntervalEnd", TimeValue(s.IntervalEnd()))
    ensures StatOfFields(fs) == Some(s)
  {
    match s
    case Query(q) => [
      Field("type", Str("QueryStat")),
      Field("IntervalEnd", TimeValue(q.intervalEnd)),
      Field("Text", Str(q.text)),
      Field("TextTruncated", Boolean(q.textTruncated)),
      Field("TextFingerprint", Int64(q.textFingerprint)),
      Field("ExecutionCount", Int64(q.executionCount)),
      Field("AvgLatencySeconds", Float(q.avgLatencySeconds)),
      Field("AvgRows", Float(q.avgRows)),
      Field("AvgBytes", Float(q.avgBytes)),
      Field("AvgRowsScanned", Float(q.avgRowsScanned)),
      Field("AvgCPUSeconds", Float(q.avgCpuSeconds))]
    case Transaction(t) => [
      Field("type", Str("TransactionStat")),
      Field("IntervalEnd", TimeValue(t.intervalEnd)),
      Field("Fprint", Int64(t.fprint)),
      Field("ReadColumns", Strings(t.readColumns)),
      Field("WriteConstructiveColumns", Strings(t.writeConstructiveColumns)),
      Field("WriteDeleteTables", Strings(t.writeDeleteTables)),
      Field("CommitAttemptCount", Int64(t.commitAttemptCount)),
      Field("CommitFailedPreconditionCount", Int64(t.commitFailedPreconditionCount)),
      Field("CommitAbortCount", Int64(t.commitAbortCount)),
      Field("AvgParticipants", Float(t.avgParticipants)),
      Field("AvgTotalLatencySeconds", Float(t.avgTotalLatencySeconds)),
      Field("AvgCommitLatencySeconds", Float(t.avgCommitLatencySeconds)),
      Field("AvgBytes", Float(t.avgBytes))]
    case Lock(l) => [
      Field("type", Str("LockStat")),
      Field("IntervalEnd", TimeValue(l.intervalEnd)),
      Field("RowRangeStartKey", ByteString(l.rowRangeStartKey)),
      Field("LockWaitSeconds", Float(l.lockWaitSeconds)),
      Field("SampleLockRequests", Any(l.sampleLockRequests))]
  }

  // Typed lookups of the field at a position, checking its key.

  function StrAt(fs: seq<Field>, i: nat, key: string): Option<string> {
    if i < |fs| && fs[i].key == key && fs[i].value.Str? then Some(fs[i].value.s) else None
  }

  function TimeAt(fs: seq<Field>, i: nat, key: string): Option<Time> {
    if i < |fs| && fs[i].key == key && fs[i].value.TimeValue? then Some(fs[i].value.t) else None
  }

  function BoolAt(fs: seq<Field>, i: nat, key: string): Option<bool> {
    if i < |fs| && fs[i].key == key && fs[i].value.Boolean? then Some(fs[i].value.b) else None
  }

  function Int64At(fs: seq<Field>, i: nat, key: string): Option<int64> {
    if i < |fs| && fs[i].key == key && fs[i].value.Int64? then Some(fs[i].value.i) else None
  }

  function FloatAt(fs: seq<Field>, i: nat, key: string): Option<Float64> {
    if i < |fs| && fs[i].key == key && fs[i].value.Float? then Some(fs[i].value.f) else None
  }

  function StringsAt(fs: seq<Field>, i: nat, key: string): Option<seq<string>> {
    if i < |fs| && fs[i].key == key && fs[i].value.Strings? then Some(fs[i].value.ss) else None
  }

  function BytesAt(fs: seq<Field>, i: nat, key: string): Option<seq<byte>> {
    if i < |fs| && fs[i].key == key && fs[i].value.ByteString? then Some(fs[i].value.bs) else None
  }

  function AnyAt(fs: seq<Field>, i: nat, key: string): Option<seq<LockRequest>> {
    if i < |fs| && fs[i].key == key && fs[i].value.Any? then Some(fs[i].value.requests) else None
  }

  /** Reads a row back from a log record's fields, guided by the `type` tag. */
  function StatOfFields(fs: seq<Field>): Option<Stat> {
    var tag :- StrAt(fs, 0, "type");
    var end :- TimeAt(fs, 1, "IntervalEnd");
    if tag == "QueryStat" && |fs| == 11 then
      var text :- StrAt(fs, 2, "Text");
      var truncated :- BoolAt(fs, 3, "TextTruncated");
      var fingerprint :- Int64At(fs, 4, "TextFingerprint");
      var count :- Int64At(fs, 5, "ExecutionCount");
      var latency :- FloatAt(fs, 6, "AvgLatencySeconds");
      var rows :- FloatAt(fs, 7, "AvgRows");
      var bytes :- FloatAt(fs, 8, "AvgBytes");
      var scanned :- FloatAt(fs, 9, "AvgRowsScanned");
      var cpu :- FloatAt(fs, 10, "AvgCPUSeconds");
      Some(Query(QueryStat(end, text, truncated, fingerprint, count, latency, rows, bytes, scanned, cpu)))
    else if tag == "TransactionStat" && |fs| == 13 then
      var fprint :- Int64At(fs, 2, "Fprint");
      var readColumns :- StringsAt(fs, 3, "ReadColumns");
      var writes :- StringsAt(fs, 4, "WriteConstructiveColumns");
      var deletes :- StringsAt(fs, 5, "WriteDeleteTables");
      var attempts :- Int64At(fs, 6, "CommitAttemptCount");
      var failed :- Int64At(fs, 7, "CommitFailedPreconditionCount");
      var aborts :- Int64At(fs, 8, "CommitAbortCount");
      var participants :- FloatAt(fs, 9, "AvgParticipants");
      var total :- FloatAt(fs, 10, "AvgTotalLatencySeconds");
      var commit :- FloatAt(fs, 11, "AvgCommitLatencySeconds");
      var bytes :- FloatAt(fs, 12, "AvgBytes");
      Some(Transaction(TransactionStat(end, fprint, readColumns, writes, deletes, attempts, failed, aborts,
                                       participants, total, commit, bytes)))
    else if tag == "LockStat" && |fs| == 5 then
      var key :- BytesAt(fs, 2, "RowRangeStartKey");
      var wait :- FloatAt(fs, 3, "LockWaitSeconds");
      var requests :- AnyAt(fs, 4, "SampleLockRequests");
      Some(Lock(LockStat(end, key, wait, requests)))
    else
      None
  }

  /** Distinct rows give distinct field lists: the record loses nothing. */
  lemma GetFieldsInjective(a: Stat, b: Stat)
    requires GetFields(a) == GetFields(b)
    ensures a == b
  {
    assert Some(a) == StatOfFields(GetFields(a)) == StatOfFields(GetFields(b)) == Some(b);
  }

  /** `Write`: exactly one record per row, in row order, each readable back as its row. */
  method Write(stats: seq<Stat>) returns (log: seq<Record>)
    ensures |log| == |stats|
    ensures forall i :: 0 <= i < |stats| ==> log[i].message == Message
    ensures forall i :: 0 <= i < |stats| ==> StatOfFields(log[i].fields) == Some(stats[i])
    ensures forall i :: 0 <= i < |stats| ==> |log[i].fields| >= 2 && log[i].fields[0] == Field("type", Str(TypeName(stats[i])))
  {
    log := [];
    for i := 0 to |stats|
      invariant |log| == i
      invariant forall k :: 0 <= k < i ==> log[k] == Record(Message, GetFields(stats[k]))
    {
      log := log + [Record(Message, GetFields(stats[i]))];
    }
  }
}
